=== FILE: README.md ===
# redird: configuration validator and router, modelled in Dafny

redird serves a personal link directory. A text-format configuration
declares a tree of items: a category has a title and an ordered list of
child items, and a link has a target URL. At startup, `parseAndVerifyConfig`
checks the three required top-level fields. It then walks the tree from the
path `/`, checks every item's name and content, gives every item a path, and
records `path -> item` in a table. At request time, `urlRedirector.ServeHTTP`
looks the request path up in that table. A link answers with a 302 redirect.
A category answers with a page built by `serveCategory`, which lists the
category's child categories and child links with their URLs.

The model is split into these modules:

- `Results` (results.dfy): `Option` and `Result`. They stand in for Go's nil pointers and `(value, error)` returns.
- `Paths` (paths.dfy): Go's `path.Clean` and two-argument `path.Join`, modelled on path segments, and what they do to the names the validator accepts.
- `Items` (items.dfy): the `Item`/`Content`/`Config` tree, `pathNeedsTrailingSlash`, and the child-path rule.
- `Validator` (validator.dfy): `parseAndVerifyItem` (`VerifyItem`, with the child loop `VerifyChildren`) and `parseAndVerifyConfig`. The source threads one mutable map through the recursion. In the model the table is passed in and the updated table is returned.
- `Walk` (walk.dfy): a second account of the walk that does not use the table. It lists the pre-order visits, the post-order writes, and the first failing visit. The theorem `VerifyItemSpec` proves that the validator agrees with it. The structural facts about the table follow from that theorem.
- `Routing` (routing.dfy): the page data of `serveCategory`, the one-pass loop that builds it, and the dispatch of `ServeHTTP`.
- `Scenarios` (scenarios.dfy): small trees. They cover a directory with a link `go` and a category `docs`, and the corner cases of the name rules.

The model follows the code, not a tidier reading of it:

- An item is written to the table only after all of its children succeed. Writes therefore happen in post-order, and the root is written last at `/`.
- Nothing rejects duplicate names. A later write to the same path replaces an earlier one.
- "Is root" means "the path is `/`". A link with an empty name directly below the root therefore gets the path `/` and passes the name rule. It is then overwritten by the root.
- Names `.` and `..` are not rejected, and `path.Join` cleans them away. A `..` link inside `/a/` gets the path `/` and fails with "root item has a name". A `.` category directly below the root gets the path `//`.
- Category pages are built per request from the stored item. Children with no content are skipped, not treated as errors.

## Model

| member | source | states |
|---|---|---|
| Paths.Clean | redird.go:150 | A cleaned rooted path is rooted, and it is `/` or has no trailing slash. A cleaned path is never empty. |
| Paths.Join | redird.go:150 | Joining below a rooted path gives a rooted path that is `/` or has no trailing slash. |
| Paths.SplitJoinSegs | redird.go:150 | Splitting a path at its slashes and joining the pieces with `/` gives the path back. |
| Paths.JoinSegsSplit | redird.go:150 | Joining a non-empty list of slash-free segments and splitting the result gives the segments back. |
| Paths.CleanIdempotent | redird.go:150 | Cleaning a rooted path a second time changes nothing. |
| Paths.JoinOrdinary | redird.go:150 | Below a directory path, a name that is not empty, `.` or `..` is simply appended. |
| Paths.JoinEmpty | redird.go:150 | Below a directory path, the empty name drops the trailing slash, except when the directory is `/`. |
| Paths.JoinDot | redird.go:150 | Below a non-empty parent path, the name `.` joins like the empty name. |
| Paths.JoinDotDot | redird.go:150 | `..` below an ordinary child directory leads back to the parent, without the parent's trailing slash. |
| Paths.ChildDirPath | redird.go:150-153 | A category with an ordinary name, below a directory path, gets a directory path again. |
| Items.NeedsTrailingSlash | redird.go:176-181 | The path of a category gets a trailing slash, and the path of any other item does not. This is its own definition. `Items.ChildPath` and `Walk.LoadedTable` state the consequence: apart from `/`, a path in the table ends in `/` exactly when it holds a category. |
| Items.ChildPath | redird.go:150-153 | Below a rooted path, a child's path is rooted. A category's path is never `/`. Apart from `/`, a path ends in `/` exactly when the child is a category. |
| Items.ChildPathOrdinary | redird.go:150-153 | With ordinary names, a child's path is the parent path plus the name, plus `/` for a category. |
| Validator.NodeError | redird.go:131-168 | An item passes its own checks exactly when these hold: the name is empty if and only if the path is `/`, the name has no slash, and the content is a category or a link with a URL. Each failure produces its own error, in the source's order. |
| Validator.VerifyItem | redird.go:130-174 | An item failing its own checks fails with that error. On success the item is in the table at its path, and no earlier path is lost. |
| Validator.VerifyChildren | redird.go:149-157 | A successful child loop keeps every path that was already in the table. |
| Validator.ParseAndVerifyConfig | redird.go:107-128 | `host_name`, `email` and `cert_dir` are required, checked in that order and before the tree. On success the root item is at `/`. |
| Walk.FirstError | redird.go:154-156 | This is the reference for which error is reported. It is none when every visit passes its checks. Otherwise it is the error of a visit whose earlier visits all pass. |
| Walk.Apply | redird.go:172 | The keys after a series of writes are the old keys plus every written path. |
| Walk.ApplyUntouched | redird.go:172 | A path that is never written keeps its entry, or its absence. |
| Walk.ApplyLastWins | redird.go:148-157 | The last write to a path decides its entry. |
| Walk.ApplyFrom | redird.go:172 | Every entry of the table is an old entry or one of the writes. |
| Walk.VerifyItemSpec | redird.go:130-174 | The validator fails with the error of the first failing item in pre-order. Otherwise it returns the incoming table with all items written in post-order. The incoming table never changes whether an error is reported, or which one. |
| Walk.VerifyChildrenSpec | redird.go:149-157 | The same agreement for a category's child loop. |
| Walk.ChildVisitsAccepted | redird.go:149-157 | The children pass exactly when every child's subtree, at its own path, passes. |
| Walk.AcceptedIff | redird.go:130-169 | A subtree is accepted exactly when its root passes its own checks and, for a category, every child's subtree is accepted. |
| Walk.FailFast | redird.go:154-156 | When the children before child i pass and child i fails, the loop fails with child i's error, unchanged. |
| Walk.WritesPermuteVisits | redird.go:148-172 | The writes are the visits in another order: every (path, item) pair occurs among the writes exactly as often as among the visits. |
| Walk.ChildWritesShaped | redird.go:150-153 | Below a rooted path, every written path is rooted. Apart from `/`, a written path ends in `/` exactly when its item is a category. |
| Walk.WritesShaped | redird.go:150-153 | The same shape rule for a whole subtree that starts from a well-shaped item. |
| Walk.WritesClosed | redird.go:148-157 | Every written category has each of its children written at the child's path. |
| Walk.ChildWritesClosed | redird.go:148-157 | Every child of a category is written at its path, and the written categories are closed under their children. |
| Walk.ConfigSpec | redird.go:107-128 | A configuration loads exactly when these hold: the three fields are set, a root item exists, and the tree from `/` is accepted. The table is then the post-order writes into an empty table. A tree error is the first failing item's error, wrapped. |
| Walk.TableIsVisits | redird.go:123-172 | In a loaded table, every path the walk visited is a key. Every entry is a visited item at the path it was visited at. |
| Walk.LoadedTable | redird.go:123-127 | In a loaded table, every entry passed its checks and is well-shaped. Every child of a category entry has its path as a key of the table and passes its checks at that path. The entry stored there can be a later sibling with the same path, or the root. |
| Routing.Entries | redird.go:69-90 | A page section never has more lines than the category has children. |
| Routing.BuildRenderModel | redird.go:55-98 | The one-pass loop builds the title, the item's description, and the two sections exactly as the section definitions give them. |
| Routing.Serve | redird.go:35-53 | A missing path gives 404. A link gives a 302 to its stored URL, unchanged. A category gives its page. An item with no content gives 500. |
| Routing.EntriesConcat | redird.go:71-90 | Sections keep declaration order: the lines for two runs of children are the lines for the first run, then those for the second. |
| Routing.EntriesListChildren | redird.go:71-90 | Every child of a section has its line, with the child's name, URL and description, in that section. |
| Routing.EntriesPartition | redird.go:71-90 | When every child has content, every child has its line in its own section (categories or links), and the two sections together have exactly one line per child. |
| Routing.EntriesPointAtChildren | redird.go:74-85 | Every line's URL is the path the walk gives that child. |
| Routing.ServeLoaded | redird.go:35-53 | With a table that passed validation, no request gets 500. A found path other than `/` gets a page exactly when it ends in `/`, and a redirect otherwise. A redirect URL is never empty. A page has one line per child. Every child is listed in its own section with the URL the walk gave it, and each line's URL is in the table. |
| Scenarios.HomeDirectoryLoads | redird.go:107-128 | The directory with link `go` and category `docs` loads as `/go`, `/docs/` and `/`. |
| Scenarios.HomeDirectoryServes | redird.go:35-90 | `/go` redirects to `https://go.dev` as written, and `/docs` is not found. `/` lists `docs` at `/docs/` and `go` at `/go`. |
| Scenarios.SectionsKeepOrder | redird.go:69-90 | The children [link a, category b, link c] give the links [a, c] and the categories [b]. |
| Scenarios.UnnamedLinkBelowRoot | redird.go:131-137 | An unnamed link directly below the root passes at `/`, and the root overwrites it. |
| Scenarios.DuplicateNamesLastWins | redird.go:148-157 | Two sibling links with one name are both accepted, and the later one stays in the table. |
| Scenarios.DotCategoryBelowRoot | redird.go:140-153 | A category named `.` below the root gets the path `//` and is accepted. |
| Scenarios.DotDotLinkLooksLikeRoot | redird.go:131-153 | A link named `..` inside `/a/` gets the path `/` and fails as a root with a name. |

## Left out

- Unmarshalling the text configuration (redird.go:109): the parser is a foreign library, and the model starts from the parsed `Config`. The `Config` that the source returns next to the table is that same input, so it is not returned again.
- Validator.ParseAndVerifyConfig: a configuration with no `content` makes the source dereference a nil item and panic at redird.go:137. At `/` the test on line 134 short-circuits, so `item.Name` on line 137 is the first dereference. The model returns the distinct error `ContentAbsent` instead of modelling the panic.
- Error message text is not modelled. Errors are a datatype that carries the path the message reports. `MissingUrl` carries none, because the format call at redird.go:161 gives its `%q` verb no argument.
- The `default:` arms at redird.go:49-51, redird.go:87-88 and redird.go:167-168 catch content types other than the two oneof variants, which the generated protobuf code cannot produce. The only other case is nil content, which the model's `NoContent` covers.
- Template execution, the content-type header, `http.ServeContent` and logging in `serveCategory` (redird.go:92-104) are left out. A page is its template data. A template failure would answer 500, and the model does not cover that.
- `http.Redirect` rewrites scheme-less target URLs relative to the request path. That is library behaviour. `Redirect` carries the URL the source hands to it.
- `main` (redird.go:183-202) is left out: flag parsing, file reading and the `ServeMux` wiring. The mux's own redirect for non-clean request paths such as `//` is part of this plumbing.
- Strings are modelled as sequences of characters, while Go's strings are byte sequences. This makes no difference here: the code only inspects `/` and `.`, and these ASCII bytes never occur inside a multi-byte UTF-8 character.
- Items are stored by value. The source stores pointers to the parsed items, but no code mutates them after startup, so nothing can tell the two apart.
- redird_debug.go, redird_release.go, handler.go and assets.go are not part of this model. They hold TLS and ACME server setup, security-header and logging middleware, a static asset handler and generated asset lookup.

=== FILE: items.dfy ===
/** The configuration tree as the text-format parser delivers it: a
    `Config` with three required strings and a root `Item`; every item is a
    category holding child items in declaration order, or a link holding a
    URL, or (when the configuration set neither) no content at all. */
module Items {
  import opened Results
  import opened Paths

  datatype Content =
    | Category(title: string, items: seq<Item>)
    | Link(url: string)
    | NoContent

  datatype Item = Item(name: string, description: string, content: Content)

  /** `content` is None when the configuration has no `content` field. */
  datatype Config = Config(hostName: string, email: string, certDir: string, content: Option<Item>)

  /** Categories are addressed with a trailing slash, links without one. */
  predicate NeedsTrailingSlash(item: Item) {
    item.content.Category?
  }

  /** The path the walk gives `child` below the path `parent`. Below a
      rooted path every child path is rooted, a category's path ends in '/'
      and is never the root, and a link's path ends in '/' only if it is the
      root itself. */
  function ChildPath(parent: string, child: Item): (p: string)
    ensures Rooted(parent) ==> Rooted(p)
    ensures Rooted(parent) && p != "/" ==> (EndsWithSlash(p) <==> NeedsTrailingSlash(child))
    ensures Rooted(parent) && NeedsTrailingSlash(child) ==> p != "/"
  {
    var joined := Join(parent, child.name);
    if NeedsTrailingSlash(child) then joined + "/" else joined
  }

  /** With ordinary names below a directory path, a child path is the
      parent's path, the name, and a slash for categories; a child category's
      path is a directory path again. */
  lemma ChildPathOrdinary(parent: string, child: Item)
    requires DirPath(parent)
    requires Ordinary(child.name)
    ensures ChildPath(parent, child) == parent + child.name + (if NeedsTrailingSlash(child) then "/" else "")
    ensures NeedsTrailingSlash(child) ==> DirPath(ChildPath(parent, child))
  {
    JoinOrdinary(parent, child.name);
    if NeedsTrailingSlash(child) {
      ChildDirPath(parent, child.name);
    }
  }
}

=== FILE: paths.dfy ===
/** Lexical path manipulation as done by Go's `path` package: `Clean`, and
    the two-argument form of `Join` that the validator and the category page
    use. `Clean` is modelled on path segments: split at '/', drop empty and
    "." segments, let ".." cancel the segment before it (or vanish at the
    root), and join again. */
module Paths {

  /** A path is rooted when it starts with '/'. */
  predicate Rooted(p: string) {
    |p| > 0 && p[0] == '/'
  }

  predicate EndsWithSlash(p: string) {
    |p| > 0 && p[|p| - 1] == '/'
  }

  /** A segment that `Clean` keeps as it is. */
  predicate Ordinary(s: string) {
    s != "" && s != "." && s != ".." && '/' !in s
  }

  /** The pieces of `p` between its slashes: "" gives [""], "/a//b" gives
      ["", "a", "", "b"]. Defined from the end so that appending is easy. */
  function Split(p: string): (segs: seq<string>)
    ensures |segs| > 0
    decreases |p|
  {
    if |p| == 0 then [""]
    else
      var init := Split(p[..|p| - 1]);
      var c := p[|p| - 1];
      if c == '/' then init + [""]
      else init[..|init| - 1] + [init[|init| - 1] + [c]]
  }

  /** No segment holds a slash. */
  lemma {:induction false} SplitSlashFree(p: string)
    ensures forall i :: 0 <= i < |Split(p)| ==> '/' !in Split(p)[i]
    decreases |p|
  {
    if |p| > 0 {
      SplitSlashFree(p[..|p| - 1]);
    }
  }

  /** The segments joined with '/' in between (Go's `strings.Join(segs, "/")`). */
  function JoinSegs(segs: seq<string>): (p: string)
    ensures |segs| > 0 && segs[0] != "" ==> |p| > 0 && p[0] == segs[0][0]
    ensures |segs| > 0 && segs[|segs| - 1] != "" ==>
              |p| > 0 && p[|p| - 1] == segs[|segs| - 1][|segs[|segs| - 1]| - 1]
    decreases |segs|
  {
    if |segs| == 0 then ""
    else if |segs| == 1 then segs[0]
    else JoinSegs(segs[..|segs| - 1]) + "/" + segs[|segs| - 1]
  }

  /** One step of `Clean`: what a segment does to the segments kept so far. */
  function Step(kept: seq<string>, seg: string, rooted: bool): seq<string> {
    if seg == "" || seg == "." then kept
    else if seg == ".." then
      if |kept| > 0 && kept[|kept| - 1] != ".." then kept[..|kept| - 1]
      else if rooted then kept
      else kept + [".."]
    else kept + [seg]
  }

  /** The segments `Clean` keeps, processing `segs` left to right. */
  function Stack(segs: seq<string>, rooted: bool): (kept: seq<string>)
    ensures forall i :: 0 <= i < |kept| ==> kept[i] != "" && kept[i] != "."
    ensures (forall i :: 0 <= i < |segs| ==> '/' !in segs[i]) ==>
              forall i :: 0 <= i < |kept| ==> '/' !in kept[i]
    ensures rooted ==> forall i :: 0 <= i < |kept| ==> kept[i] != ".."
    decreases |segs|
  {
    if |segs| == 0 then []
    else Step(Stack(segs[..|segs| - 1], rooted), segs[|segs| - 1], rooted)
  }

  /** Go's `path.Clean`: the shortest lexically equivalent path. A rooted
      path cleans to "/" or to a rooted path without a trailing slash. */
  function Clean(p: string): (c: string)
    ensures |c| > 0
    ensures Rooted(p) ==> Rooted(c) && (c == "/" || !EndsWithSlash(c))
  {
    var rooted := Rooted(p);
    SplitSlashFree(p);
    var kept := Stack(Split(p), rooted);
    if rooted then "/" + JoinSegs(kept)
    else if |kept| == 0 then "."
    else JoinSegs(kept)
  }

  /** Go's `path.Join(a, b)`: empty elements are ignored, the rest are
      joined with '/' and cleaned. */
  function Join(a: string, b: string): (j: string)
    ensures Rooted(a) ==> Rooted(j) && (j == "/" || !EndsWithSlash(j))
  {
    if a != "" then Clean(a + "/" + b)
    else if b != "" then Clean(b)
    else ""
  }

  /** A directory-style path as the validator produces for categories: the
      root, or a cleaned path other than the root followed by one '/'. */
  predicate DirPath(p: string) {
    Rooted(p) && (p == "/" || (Clean(p) != "/" && Clean(p) + "/" == p))
  }

  // ---------------------------------------------------------------------
  // Splitting and joining segments are inverse to each other.

  lemma {:induction false} SplitJoinSegs(p: string)
    ensures JoinSegs(Split(p)) == p
    decreases |p|
  {
    if |p| > 0 {
      var q := p[..|p| - 1];
      var c := p[|p| - 1];
      assert p == q + [c];
      SplitJoinSegs(q);
      SplitSnoc(q, c);
      var init := Split(q);
      var n := |init|;
      if c == '/' {
        JoinSegsSnoc(init, "");
      } else if n == 1 {
        assert Split(p) == [init[0] + [c]];
      } else {
        assert init == init[..n - 1] + [init[n - 1]];
        JoinSegsSnoc(init[..n - 1], init[n - 1]);
        JoinSegsSnoc(init[..n - 1], init[n - 1] + [c]);
      }
    }
  }

  /** How one more character extends the split. */
  lemma SplitSnoc(p: string, c: char)
    ensures Split(p + [c]) ==
      if c == '/' then Split(p) + [""]
      else Split(p)[..|Split(p)| - 1] + [Split(p)[|Split(p)| - 1] + [c]]
  {
    assert (p + [c])[..|p|] == p;
  }

  lemma {:induction false} SplitConcat(a: string, b: string)
    ensures Split(a + "/" + b) == Split(a) + Split(b)
    decreases |b|
  {
    if |b| == 0 {
      assert a + "/" + b == a + ['/'];
      SplitSnoc(a, '/');
    } else {
      var b' := b[..|b| - 1];
      var c := b[|b| - 1];
      assert b == b' + [c];
      assert a + "/" + b == (a + "/" + b') + [c];
      SplitConcat(a, b');
      SplitConcatStep(a + "/" + b', Split(a), b', c);
    }
  }

  /** The inductive step of SplitConcat, with the hypothesis as a premise. */
  lemma SplitConcatStep(p: string, sa: seq<string>, b': string, c: char)
    requires Split(p) == sa + Split(b')
    ensures Split(p + [c]) == sa + Split(b' + [c])
  {
    SplitSnoc(p, c);
    SplitSnoc(b', c);
    var sb' := Split(b');
    var whole := sa + sb';
    if c == '/' {
      assert whole + [""] == sa + (sb' + [""]);
    } else {
      var n := |sb'| - 1;
      assert whole[..|whole| - 1] == sa + sb'[..n];
      assert whole[|whole| - 1] == sb'[n];
      assert (sa + sb'[..n]) + [sb'[n] + [c]] == sa + (sb'[..n] + [sb'[n] + [c]]);
    }
  }

  lemma {:induction false} SplitNoSlash(s: string)
    requires '/' !in s
    ensures Split(s) == [s]
    decreases |s|
  {
    if |s| > 0 {
      SplitNoSlash(s[..|s| - 1]);
      assert s[..|s| - 1] + [s[|s| - 1]] == s;
    }
  }

  lemma {:induction false} JoinSegsSplit(segs: seq<string>)
    requires |segs| > 0
    requires forall i :: 0 <= i < |segs| ==> '/' !in segs[i]
    ensures Split(JoinSegs(segs)) == segs
    decreases |segs|
  {
    if |segs| == 1 {
      SplitNoSlash(segs[0]);
    } else {
      var init := segs[..|segs| - 1];
      var last := segs[|segs| - 1];
      JoinSegsSplit(init);
      SplitConcat(JoinSegs(init), last);
      SplitNoSlash(last);
      assert init + [last] == segs;
    }
  }

  // ---------------------------------------------------------------------
  // Facts about the segment stack.

  lemma StackSnoc(segs: seq<string>, seg: string, rooted: bool)
    ensures Stack(segs + [seg], rooted) == Step(Stack(segs, rooted), seg, rooted)
  {
    assert (segs + [seg])[..|segs|] == segs;
  }

  /** Ordinary segments are pushed as they are. */
  lemma {:induction false} StackOrdinary(pre: seq<string>, s: seq<string>, rooted: bool)
    requires forall i :: 0 <= i < |s| ==> Ordinary(s[i])
    ensures Stack(pre + s, rooted) == Stack(pre, rooted) + s
    decreases |s|
  {
    if |s| == 0 {
      assert pre + s == pre;
    } else {
      var s' := s[..|s| - 1];
      StackOrdinary(pre, s', rooted);
      assert pre + s == (pre + s') + [s[|s| - 1]];
      StackSnoc(pre + s', s[|s| - 1], rooted);
      assert s' + [s[|s| - 1]] == s;
    }
  }

  // ---------------------------------------------------------------------
  // Facts about Clean and Join.

  lemma SplitRoot()
    ensures Split("/") == ["", ""]
  {
    assert "/"[..0] == "";
  }

  lemma StackEmpties(n: nat)
    ensures Stack(seq(n, _ => ""), true) == []
  {
    if n > 0 {
      StackEmpties(n - 1);
      StackSnoc(seq(n - 1, _ => ""), "", true);
      assert seq(n, _ => "") == seq(n - 1, _ => "") + [""];
    }
  }

  /** The root cleans to itself. */
  lemma StackOfRoot()
    ensures Stack(Split("/"), true) == []
    ensures Stack(Split(""), true) == []
  {
    SplitRoot();
    StackEmpties(2);
    StackEmpties(1);
    assert seq(2, _ => "") == ["", ""];
    assert seq(1, _ => "") == [""];
  }

  lemma CleanRoot()
    ensures Clean("/") == "/"
  {
    StackOfRoot();
  }

  /** The segments kept for a rooted path are all ordinary. */
  lemma RootedKeptOrdinary(p: string)
    ensures forall i :: 0 <= i < |Stack(Split(p), true)| ==> Ordinary(Stack(Split(p), true)[i])
  {
    var kept := Stack(Split(p), true);
    SplitSlashFree(p);
    forall i | 0 <= i < |kept|
      ensures Ordinary(kept[i])
    {
      assert kept[i] != "" && kept[i] != "." && kept[i] != ".." && '/' !in kept[i];
    }
  }

  lemma SplitAfterRoot(j: string)
    ensures Split("/" + j) == [""] + Split(j)
  {
    var e: string := "";
    assert "/" + j == e + "/" + j;
    SplitConcat(e, j);
  }

  /** A cleaned rooted path is the root followed by its kept segments. */
  lemma SplitOfRootedSegs(kept: seq<string>)
    requires forall i :: 0 <= i < |kept| ==> Ordinary(kept[i])
    ensures Stack(Split("/" + JoinSegs(kept)), true) == kept
  {
    StackOfRoot();
    if |kept| == 0 {
      assert "/" + JoinSegs(kept) == "/";
    } else {
      SplitAfterRoot(JoinSegs(kept));
      JoinSegsSplit(kept);
      StackOrdinary([""], kept, true);
    }
  }

  /** Cleaning a rooted path twice changes nothing more. */
  lemma CleanIdempotent(p: string)
    requires Rooted(p)
    ensures Clean(Clean(p)) == Clean(p)
  {
    var kept := Stack(Split(p), true);
    var c := Clean(p);
    assert c == "/" + JoinSegs(kept);
    RootedKeptOrdinary(p);
    SplitOfRootedSegs(kept);
    assert Rooted(c);
  }

  /** A trailing slash does not survive cleaning. */
  lemma CleanTrailingSlash(p: string)
    requires |p| > 0
    ensures Clean(p + "/") == Clean(p)
  {
    SplitConcat(p, "");
    assert p + "/" == p + "/" + "";
    StackSnoc(Split(p), "", Rooted(p));
  }

  /** Joining an ordinary name under a rooted path pushes one segment. */
  lemma CleanSnoc(p: string, name: string)
    requires Rooted(p)
    requires Ordinary(name)
    ensures Clean(p + "/" + name) == "/" + JoinSegs(Stack(Split(p), true) + [name])
  {
    SplitConcat(p, name);
    SplitNoSlash(name);
    StackSnoc(Split(p), name, true);
    assert Rooted(p + "/" + name);
  }

  /** How `Clean` reads on a rooted path. */
  lemma CleanRooted(p: string)
    requires Rooted(p)
    ensures Clean(p) == "/" + JoinSegs(Stack(Split(p), true))
  {
  }

  /** Below a directory path an ordinary name is simply appended. */
  lemma JoinOrdinary(parent: string, name: string)
    requires DirPath(parent)
    requires Ordinary(name)
    ensures Join(parent, name) == parent + name
  {
    var kept := Stack(Split(parent), true);
    CleanSnoc(parent, name);
    assert Join(parent, name) == Clean(parent + "/" + name);
    if parent == "/" {
      StackOfRoot();
      assert kept + [name] == [name];
      assert JoinSegs([name]) == name;
    } else {
      CleanRooted(parent);
      JoinUnderCleaned(parent, kept, name);
    }
  }

  lemma JoinUnderCleaned(parent: string, kept: seq<string>, name: string)
    requires Clean(parent) == "/" + JoinSegs(kept)
    requires Clean(parent) != "/"
    requires Clean(parent) + "/" == parent
    ensures "/" + JoinSegs(kept + [name]) == parent + name
  {
    assert |kept| > 0;
    JoinSegsSnoc(kept, name);
  }

  lemma JoinSegsSnoc(kept: seq<string>, name: string)
    requires |kept| > 0
    ensures JoinSegs(kept + [name]) == JoinSegs(kept) + "/" + name
  {
    var s := kept + [name];
    assert |s| > 1;
    assert s[..|s| - 1] == kept;
    assert s[|s| - 1] == name;
  }

  /** The empty name drops the directory's trailing slash, except at the root. */
  lemma JoinEmpty(parent: string)
    requires DirPath(parent)
    ensures Join(parent, "") == if parent == "/" then "/" else parent[..|parent| - 1]
  {
    CleanTrailingSlash(parent);
    assert parent + "/" + "" == parent + "/";
    if parent == "/" {
      CleanRoot();
    } else {
      assert parent[..|parent| - 1] == Clean(parent);
    }
  }

  /** Below a non-empty parent, "." names the directory itself, exactly
      like the empty name. (`Join("", ".")` is "." but `Join("", "")` is "".) */
  lemma JoinDot(parent: string)
    requires |parent| > 0
    ensures Join(parent, ".") == Join(parent, "")
  {
    SplitConcat(parent, ".");
    SplitConcat(parent, "");
    SplitNoSlash(".");
    StackSnoc(Split(parent), ".", Rooted(parent));
    StackSnoc(Split(parent), "", Rooted(parent));
  }

  /** An ordinary child of a directory path, with a slash appended, is a
      directory path again. */
  lemma ChildDirPath(parent: string, name: string)
    requires DirPath(parent)
    requires Ordinary(name)
    ensures DirPath(parent + name + "/")
  {
    JoinOrdinary(parent, name);
    CleanIdempotent(parent + "/" + name);
    CleanTrailingSlash(parent + name);
  }

  /** Cleaning keeps exactly the segments a rooted path already keeps. */
  lemma KeptOfClean(p: string)
    requires Rooted(p)
    ensures Stack(Split(Clean(p)), true) == Stack(Split(p), true)
  {
    RootedKeptOrdinary(p);
    SplitOfRootedSegs(Stack(Split(p), true));
  }

  /** The segments kept for an ordinary child directory: those of the
      parent plus the child's name. */
  lemma KeptOfChild(parent: string, name: string)
    requires DirPath(parent)
    requires Ordinary(name)
    ensures Stack(Split(parent + name + "/"), true) == Stack(Split(parent), true) + [name]
  {
    var child := parent + name + "/";
    ChildDirPath(parent, name);
    assert Clean(child) == parent + name;
    JoinOrdinary(parent, name);
    KeptOfClean(child);
    KeptOfClean(parent + "/" + name);
    SplitConcat(parent, name);
    SplitNoSlash(name);
    StackSnoc(Split(parent), name, true);
  }

  /** ".." drops the last kept segment when that is an ordinary one. */
  lemma CleanDotDot(p: string, kept: seq<string>)
    requires Rooted(p)
    requires kept == Stack(Split(p), true)
    requires |kept| > 0 && kept[|kept| - 1] != ".."
    ensures Clean(p + "/" + "..") == "/" + JoinSegs(kept[..|kept| - 1])
  {
    var q := p + "/" + "..";
    SplitConcat(p, "..");
    SplitNoSlash("..");
    assert Split(q) == Split(p) + [".."];
    StackSnoc(Split(p), "..", true);
    assert Stack(Split(q), true) == kept[..|kept| - 1];
    assert Rooted(q);
    CleanRooted(q);
  }

  /** Entering an ordinary child directory and joining ".." leads back to
      the directory, without its trailing slash. */
  lemma JoinDotDot(parent: string, name: string)
    requires DirPath(parent)
    requires Ordinary(name)
    ensures Join(parent + name + "/", "..") == Join(parent, "")
  {
    var child := parent + name + "/";
    var kept := Stack(Split(parent), true);
    KeptOfChild(parent, name);
    assert Rooted(child);
    assert (kept + [name])[..|kept|] == kept;
    CleanDotDot(child, kept + [name]);
    JoinEmptyRooted(parent);
  }

  lemma JoinEmptyRooted(p: string)
    requires Rooted(p)
    ensures Join(p, "") == "/" + JoinSegs(Stack(Split(p), true))
  {
    assert p + "/" + "" == p + "/";
    CleanTrailingSlash(p);
    CleanRooted(p);
  }
}

=== FILE: results.dfy ===
/** Failure-carrying wrappers used across the model, standing in for Go's
    `(value, error)` returns and nil pointers. */
module Results {

  /** An optional value; `None` plays the role of a nil pointer or a nil error. */
  datatype Option<+T> = None | Some(value: T)

  /** Either a value or the error that prevented computing it. */
  datatype Result<+T, +E> = Success(value: T) | Failure(error: E)
}

=== FILE: routing.dfy ===
/** The request side: `urlRedirector.ServeHTTP` looks the request path up in
    the table built at startup and answers with a category page, a redirect,
    "not found" or "internal server error"; `serveCategory` builds the data
    the page template receives. The template, headers and the HTTP response
    writer are outside the model. */
module Routing {
  import opened Results
  import opened Paths
  import opened Items
  import opened Validator
  import opened Walk

  /** One line of a category page. */
  datatype Entry = Entry(name: string, url: string, description: string)

  /** The data handed to the category template. */
  datatype RenderModel = RenderModel(title: string, description: string, categories: seq<Entry>, links: seq<Entry>)

  /** The answer to one request. `Redirect` carries the URL handed to the
      redirect with status 302 Found. */
  datatype Response =
    | NotFound
    | Redirect(location: string)
    | Page(model: RenderModel)
    | InternalError

  function StatusCode(r: Response): int {
    match r
    case NotFound => 404
    case Redirect(_) => 302
    case Page(_) => 200
    case InternalError => 500
  }

  /** The two lists of a category page. */
  datatype Section = Categories | Links

  predicate InSection(c: Item, s: Section) {
    match s
    case Categories => c.content.Category?
    case Links => c.content.Link?
  }

  /** The line for child `c` of the category at `reqPath`. */
  function EntryFor(reqPath: string, c: Item, s: Section): Entry {
    match s
    case Categories => Entry(c.name, Join(reqPath, c.name) + "/", c.description)
    case Links => Entry(c.name, Join(reqPath, c.name), c.description)
  }

  /** The lines of one section: the children in that section, in
      declaration order. Children with no content belong to neither. */
  function Entries(reqPath: string, children: seq<Item>, s: Section): (es: seq<Entry>)
    ensures |es| <= |children|
    decreases |children|
  {
    if |children| == 0 then []
    else
      var init := Entries(reqPath, children[..|children| - 1], s);
      var c := children[|children| - 1];
      if InSection(c, s) then init + [EntryFor(reqPath, c, s)] else init
  }

  /** The template data for the category `item` requested at `reqPath`:
      its title, its own description, and the two sections. */
  function RenderCategory(reqPath: string, item: Item): RenderModel
    requires item.content.Category?
  {
    RenderModel(item.content.title, item.description,
                Entries(reqPath, item.content.items, Categories),
                Entries(reqPath, item.content.items, Links))
  }

  /** `serveCategory` up to the template call: one pass over the children,
      appending each to the list of its kind and skipping the rest. */
  method BuildRenderModel(reqPath: string, item: Item) returns (m: RenderModel)
    requires item.content.Category?
    ensures m == RenderCategory(reqPath, item)
  {
    var children := item.content.items;
    var cats: seq<Entry> := [];
    var links: seq<Entry> := [];
    var i := 0;
    while i < |children|
      invariant 0 <= i <= |children|
      invariant cats == Entries(reqPath, children[..i], Categories)
      invariant links == Entries(reqPath, children[..i], Links)
    {
      var c := children[i];
      assert children[..i + 1] == children[..i] + [c];
      EntriesSnoc(reqPath, children[..i], c, Categories);
      EntriesSnoc(reqPath, children[..i], c, Links);
      match c.content {
        case Category(_, _) =>
          cats := cats + [Entry(c.name, Join(reqPath, c.name) + "/", c.description)];
        case Link(_) =>
          links := links + [Entry(c.name, Join(reqPath, c.name), c.description)];
        case NoContent =>
      }
      i := i + 1;
    }
    assert children[..|children|] == children;
    m := RenderModel(item.content.title, item.description, cats, links);
  }

  /** `ServeHTTP`: an exact lookup of the request path, then a dispatch on
      the kind of item found. */
  function Serve(table: map<string, Item>, reqPath: string): (r: Response)
    ensures r.NotFound? <==> reqPath !in table
    ensures r.Redirect? <==> reqPath in table && table[reqPath].content.Link?
    ensures r.Redirect? ==> r.location == table[reqPath].content.url
    ensures r.Page? <==> reqPath in table && table[reqPath].content.Category?
    ensures r.Page? ==> r.model == RenderCategory(reqPath, table[reqPath])
    ensures r.InternalError? <==> reqPath in table && table[reqPath].content.NoContent?
  {
    if reqPath !in table then NotFound
    else
      var item := table[reqPath];
      match item.content
      case Category(_, _) => Page(RenderCategory(reqPath, item))
      case Link(url) => Redirect(url)
      case NoContent => InternalError
  }

  // ---------------------------------------------------------------------
  // Properties of the category page.

  lemma EntriesSnoc(reqPath: string, children: seq<Item>, c: Item, s: Section)
    ensures Entries(reqPath, children + [c], s) ==
      Entries(reqPath, children, s) + (if InSection(c, s) then [EntryFor(reqPath, c, s)] else [])
  {
    assert (children + [c])[..|children|] == children;
  }

  /** Each section keeps declaration order: the lines for a concatenation of
      children are the lines for the first part followed by those for the
      second. */
  lemma {:induction false} EntriesConcat(reqPath: string, a: seq<Item>, b: seq<Item>, s: Section)
    ensures Entries(reqPath, a + b, s) == Entries(reqPath, a, s) + Entries(reqPath, b, s)
    decreases |b|
  {
    if |b| == 0 {
      assert a + b == a;
    } else {
      var b' := b[..|b| - 1];
      var c := b[|b| - 1];
      assert b == b' + [c];
      assert a + b == (a + b') + [c];
      EntriesConcat(reqPath, a, b', s);
      EntriesSnoc(reqPath, a + b', c, s);
      EntriesSnoc(reqPath, b', c, s);
    }
  }

  /** Every child of a section has its line in that section. */
  lemma {:induction false} EntriesListChildren(reqPath: string, children: seq<Item>, s: Section)
    ensures forall c :: c in children && InSection(c, s) ==> EntryFor(reqPath, c, s) in Entries(reqPath, children, s)
    decreases |children|
  {
    if |children| > 0 {
      var init := children[..|children| - 1];
      var last := children[|children| - 1];
      EntriesListChildren(reqPath, init, s);
      EntriesSnoc(reqPath, init, last, s);
      assert children == init + [last];
      forall c | c in children && InSection(c, s)
        ensures EntryFor(reqPath, c, s) in Entries(reqPath, children, s)
      {
        if c != last {
          assert c in init;
        }
      }
    }
  }

  /** When every child has content, every child has its line in its own
      section, and the two sections together have exactly one line per
      child. */
  lemma {:induction false} EntriesPartition(reqPath: string, children: seq<Item>)
    requires forall i :: 0 <= i < |children| ==> !children[i].content.NoContent?
    ensures |Entries(reqPath, children, Categories)| + |Entries(reqPath, children, Links)| == |children|
    ensures forall c :: c in children ==>
              (c.content.Category? && EntryFor(reqPath, c, Categories) in Entries(reqPath, children, Categories)) ||
              (c.content.Link? && EntryFor(reqPath, c, Links) in Entries(reqPath, children, Links))
    decreases |children|
  {
    if |children| > 0 {
      EntriesPartition(reqPath, children[..|children| - 1]);
    }
    EntriesListChildren(reqPath, children, Categories);
    EntriesListChildren(reqPath, children, Links);
    forall c | c in children
      ensures c.content.Category? || c.content.Link?
    {
      var i :| 0 <= i < |children| && children[i] == c;
    }
  }

  /** Every line of a page points at the path the walk gives that child. */
  lemma {:induction false} EntriesPointAtChildren(reqPath: string, children: seq<Item>, s: Section)
    ensures forall e :: e in Entries(reqPath, children, s) ==>
              exists c :: c in children && InSection(c, s) && e == Entry(c.name, ChildPath(reqPath, c), c.description)
    decreases |children|
  {
    if |children| > 0 {
      var init := children[..|children| - 1];
      var c := children[|children| - 1];
      EntriesPointAtChildren(reqPath, init, s);
      forall e | e in Entries(reqPath, children, s)
        ensures exists c :: c in children && InSection(c, s) && e == Entry(c.name, ChildPath(reqPath, c), c.description)
      {
        if e in Entries(reqPath, init, s) {
          var c' :| c' in init && InSection(c', s) && e == Entry(c'.name, ChildPath(reqPath, c'), c'.description);
          assert c' in children;
        } else {
          assert e == EntryFor(reqPath, c, s);
          assert c in children;
        }
      }
    }
  }

  // ---------------------------------------------------------------------
  // Serving from a table that passed validation.

  /** Once a configuration has loaded, no request gets an internal error;
      apart from "/", a path that is found gets a page when it ends in '/'
      and a redirect otherwise; and a page lists every child of its category,
      each pointing at a path that is in the table. */
  lemma ServeLoaded(cfg: Config, table: map<string, Item>, reqPath: string)
    requires ParseAndVerifyConfig(cfg) == Success(table)
    ensures StatusCode(Serve(table, reqPath)) != 500
    ensures reqPath in table && reqPath != "/" ==>
              (Serve(table, reqPath).Page? <==> EndsWithSlash(reqPath)) &&
              (Serve(table, reqPath).Redirect? <==> !EndsWithSlash(reqPath))
    ensures Serve(table, reqPath).Redirect? ==> Serve(table, reqPath).location != ""
    ensures Serve(table, reqPath).Page? ==>
              var m := Serve(table, reqPath).model;
              |m.categories| + |m.links| == |table[reqPath].content.items| &&
              (forall c :: c in table[reqPath].content.items ==>
                 (c.content.Category? && Entry(c.name, ChildPath(reqPath, c), c.description) in m.categories) ||
                 (c.content.Link? && Entry(c.name, ChildPath(reqPath, c), c.description) in m.links)) &&
              (forall e :: e in m.categories ==> e.url in table) &&
              (forall e :: e in m.links ==> e.url in table)
  {
    LoadedTable(cfg, table);
    if reqPath in table && table[reqPath].content.Category? {
      var children := table[reqPath].content.items;
      forall i | 0 <= i < |children|
        ensures !children[i].content.NoContent?
      {
        assert children[i] in children;
      }
      EntriesPartition(reqPath, children);
      EntriesPointAtChildren(reqPath, children, Categories);
      EntriesPointAtChildren(reqPath, children, Links);
    }
  }
}

=== FILE: scenarios.dfy ===
/** Concrete configurations that pin the model's behaviour down on small
    trees: the directory with a link `go` and a category `docs`, and the
    corner cases of the name rules. */
module Scenarios {
  import opened Results
  import opened Paths
  import opened Items
  import opened Validator
  import opened Routing

  const goLink := Item("go", "", Link("https://go.dev"))
  const docs := Item("docs", "", Category("Docs", []))
  const home := Item("", "", Category("Home", [goLink, docs]))
  const homeConfig := Config("example.com", "admin@example.com", "/var/certs", Some(home))

  const homeTable := map["/go" := goLink, "/docs/" := docs, "/" := home]

  lemma GoPath()
    ensures Join("/", "go") == "/go" && ChildPath("/", goLink) == "/go"
  {
    JoinOrdinary("/", "go");
  }

  lemma DocsPath()
    ensures Join("/", "docs") == "/docs" && ChildPath("/", docs) == "/docs/"
  {
    JoinOrdinary("/", "docs");
  }

  lemma HomePaths()
    ensures Join("/", "go") == "/go" && Join("/", "docs") == "/docs"
    ensures ChildPath("/", goLink) == "/go" && ChildPath("/", docs) == "/docs/"
  {
    GoPath();
    DocsPath();
  }

  lemma HomeChildren()
    ensures VerifyChildren("/", [goLink, docs], map[]) == Success(map["/go" := goLink, "/docs/" := docs])
  {
    HomePaths();
    var t1 := map["/go" := goLink];
    assert VerifyItem("/go", goLink, map[]) == Success(t1);
    assert VerifyItem("/docs/", docs, t1) == Success(t1["/docs/" := docs]);
    assert [goLink, docs][1..] == [docs];
    assert VerifyChildren("/", [docs], t1) == Success(t1["/docs/" := docs]);
  }

  /** The directory with a link "go" and a category "docs" loads into three
      entries, the root written last at "/". */
  lemma HomeDirectoryLoads()
    ensures ParseAndVerifyConfig(homeConfig) == Success(homeTable)
  {
    HomeChildren();
    assert VerifyItem("/", home, map[]) == Success(homeTable);
  }

  /** "/go" redirects to the configured URL as written, "/docs" (without the
      slash) is not found, and "/" lists "docs/" and "go". */
  lemma HomeDirectoryServes()
    ensures Serve(homeTable, "/go") == Redirect("https://go.dev")
    ensures Serve(homeTable, "/docs") == NotFound
    ensures Serve(homeTable, "/") ==
              Page(RenderModel("Home", "", [Entry("docs", "/docs/", "")], [Entry("go", "/go", "")]))
  {
    HomePaths();
    var children := [goLink, docs];
    assert children == [goLink] + [docs];
    assert [goLink] == [] + [goLink];
    EntriesSnoc("/", [goLink], docs, Categories);
    EntriesSnoc("/", [goLink], docs, Links);
    EntriesSnoc("/", [], goLink, Categories);
    EntriesSnoc("/", [], goLink, Links);
  }

  /** A category's children [link a, category b, link c] give the links
      [a, c] and the categories [b]: order within a section is kept, the
      interleaving between the sections is not. */
  lemma SectionsKeepOrder(reqPath: string, a: Item, b: Item, c: Item)
    requires a.content.Link? && b.content.Category? && c.content.Link?
    ensures Entries(reqPath, [a, b, c], Links) == [EntryFor(reqPath, a, Links), EntryFor(reqPath, c, Links)]
    ensures Entries(reqPath, [a, b, c], Categories) == [EntryFor(reqPath, b, Categories)]
  {
    assert [a, b, c] == [a, b] + [c];
    assert [a, b] == [a] + [b];
    assert [a] == [] + [a];
    EntriesSnoc(reqPath, [a, b], c, Links);
    EntriesSnoc(reqPath, [a], b, Links);
    EntriesSnoc(reqPath, [], a, Links);
    EntriesSnoc(reqPath, [a, b], c, Categories);
    EntriesSnoc(reqPath, [a], b, Categories);
    EntriesSnoc(reqPath, [], a, Categories);
  }

  /** The root test looks at the path only: a link with an empty name
      directly below the root gets the path "/" and passes the name rule; it
      is then overwritten by the root, which is written last. */
  lemma UnnamedLinkBelowRoot(link: Item, title: string, description: string)
    requires link.name == "" && link.content.Link? && link.content.url != ""
    ensures VerifyItem("/", Item("", description, Category(title, [link])), map[]) ==
              Success(map["/" := Item("", description, Category(title, [link]))])
  {
    JoinEmpty("/");
    assert ChildPath("/", link) == "/";
    assert VerifyItem("/", link, map[]) == Success(map["/" := link]);
    assert [link][1..] == [];
    assert VerifyChildren("/", [link], map[]) == Success(map["/" := link]);
    assert map["/" := link]["/" := Item("", description, Category(title, [link]))] ==
           map["/" := Item("", description, Category(title, [link]))];
  }

  /** Nothing rejects two siblings with the same name: both are verified,
      and the later one is the one left in the table. */
  lemma DuplicateNamesLastWins(first: Item, second: Item, title: string)
    requires Ordinary(first.name) && first.name == second.name
    requires first.content.Link? && first.content.url != ""
    requires second.content.Link? && second.content.url != ""
    ensures var r := VerifyItem("/", Item("", "", Category(title, [first, second])), map[]);
            r.Success? && "/" + first.name in r.value && r.value["/" + first.name] == second
  {
    var p := "/" + first.name;
    JoinOrdinary("/", first.name);
    assert ChildPath("/", first) == p && ChildPath("/", second) == p;
    assert p != "/";
    assert VerifyItem(p, first, map[]) == Success(map[p := first]);
    assert map[p := first][p := second] == map[p := second];
    assert VerifyItem(p, second, map[p := first]) == Success(map[p := second]);
    assert [first, second][1..] == [second];
    assert [second][1..] == [];
    assert VerifyChildren("/", [second], map[p := first]) == Success(map[p := second]);
    assert VerifyChildren("/", [first, second], map[]) == Success(map[p := second]);
  }

  /** "." is not rejected: a category named "." directly below the root
      gets the path "//", which is not the root, so it passes. */
  lemma DotCategoryBelowRoot(dot: Item)
    requires dot.name == "." && dot.content == Category("", [])
    ensures ChildPath("/", dot) == "//"
    ensures VerifyItem("//", dot, map[]) == Success(map["//" := dot])
  {
    JoinDot("/");
    JoinEmpty("/");
  }

  /** ".." is not rejected as such, but a link named ".." inside the
      category "/a/" gets the path "/", and so fails as a root with a name. */
  lemma DotDotLinkLooksLikeRoot(name: string, link: Item)
    requires Ordinary(name)
    requires link.name == ".." && link.content.Link? && link.content.url != ""
    ensures ChildPath("/" + name + "/", link) == "/"
    ensures VerifyItem("/" + name + "/", Item(name, "", Category("", [link])), map[]) == Failure(RootNamed)
  {
    JoinDotDot("/", name);
    JoinEmpty("/");
    assert "/" + name + "/" != "/";
  }
}

=== FILE: validator.dfy ===
/** The startup validator: `parseAndVerifyConfig` and the recursive
    `parseAndVerifyItem`, which checks every item of the tree, gives each a
    path, and records `path -> item` in a table. The source threads one
    mutable map through the recursion; here the table is passed in and the
    updated table returned. */
module Validator {
  import opened Results
  import opened Items

  /** The errors the walk reports. `MissingUrl` names no path because the
      source's message leaves its `%q` verb without an argument. */
  datatype ItemError =
    | Unnamed(path: string)
    | RootNamed
    | SlashInName(path: string)
    | MissingUrl
    | ContentMissing(path: string)

  /** The errors of the whole configuration, in the order they are checked.
      `ContentAbsent` is a configuration without a root item. */
  datatype ConfigError =
    | HostNameRequired
    | EmailRequired
    | CertDirRequired
    | ContentAbsent
    | ContentInvalid(cause: ItemError)

  /** The name rule: the item at "/" has no name, every other item has one,
      and no name contains a slash. */
  predicate NameAccepted(pth: string, name: string) {
    (pth == "/" <==> name == "") && '/' !in name
  }

  /** The content rule: a category, or a link with a URL. */
  predicate ContentAccepted(c: Content) {
    c.Category? || (c.Link? && c.url != "")
  }

  /** The checks made at one item before (for a category) its children are
      visited, in the source's order; None when the item passes them. */
  function NodeError(pth: string, item: Item): (e: Option<ItemError>)
    ensures e.None? <==> NameAccepted(pth, item.name) && ContentAccepted(item.content)
    ensures pth != "/" && item.name == "" ==> e == Some(Unnamed(pth))
    ensures pth == "/" && item.name != "" ==> e == Some(RootNamed)
    ensures (pth == "/" <==> item.name == "") && '/' in item.name ==> e == Some(SlashInName(pth))
    ensures NameAccepted(pth, item.name) && item.content.NoContent? ==> e == Some(ContentMissing(pth))
    ensures NameAccepted(pth, item.name) && item.content.Link? && item.content.url == "" ==> e == Some(MissingUrl)
  {
    var isRoot := pth == "/";
    if !isRoot && item.name == "" then Some(Unnamed(pth))
    else if isRoot && item.name != "" then Some(RootNamed)
    else if '/' in item.name then Some(SlashInName(pth))
    else match item.content
      case Category(_, _) => None
      case Link(url) => if url == "" then Some(MissingUrl) else None
      case NoContent => Some(ContentMissing(pth))
  }

  /** `parseAndVerifyItem`: verifies `item` at `pth` and, only after all its
      children succeeded, records it at `pth`. */
  function VerifyItem(pth: string, item: Item, table: map<string, Item>): (r: Result<map<string, Item>, ItemError>)
    ensures NodeError(pth, item).Some? ==> r == Failure(NodeError(pth, item).value)
    ensures r.Success? ==> pth in r.value && r.value[pth] == item
    ensures r.Success? ==> table.Keys <= r.value.Keys
    decreases item
  {
    match NodeError(pth, item)
    case Some(e) => Failure(e)
    case None =>
      match item.content
      case Category(_, items) =>
        (match VerifyChildren(pth, items, table)
         case Failure(e) => Failure(e)
         case Success(t) => Success(t[pth := item]))
      case _ => Success(table[pth := item])
  }

  /** The loop over a category's children: each child is verified at its
      own path in declaration order, and the first failure ends the loop. */
  function VerifyChildren(pth: string, items: seq<Item>, table: map<string, Item>): (r: Result<map<string, Item>, ItemError>)
    ensures r.Success? ==> table.Keys <= r.value.Keys
    decreases items
  {
    if |items| == 0 then Success(table)
    else
      match VerifyItem(ChildPath(pth, items[0]), items[0], table)
      case Failure(e) => Failure(e)
      case Success(t) => VerifyChildren(pth, items[1..], t)
  }

  /** `parseAndVerifyConfig` after unmarshalling: the three required fields
      in order, then the walk from "/" into an empty table. A failure
      returns no table at all. */
  function ParseAndVerifyConfig(cfg: Config): (r: Result<map<string, Item>, ConfigError>)
    ensures cfg.hostName == "" ==> r == Failure(HostNameRequired)
    ensures cfg.hostName != "" && cfg.email == "" ==> r == Failure(EmailRequired)
    ensures cfg.hostName != "" && cfg.email != "" && cfg.certDir == "" ==> r == Failure(CertDirRequired)
    ensures r.Success? ==> cfg.hostName != "" && cfg.email != "" && cfg.certDir != ""
    ensures r.Success? ==> cfg.content.Some? && "/" in r.value && r.value["/"] == cfg.content.value
  {
    if cfg.hostName == "" then Failure(HostNameRequired)
    else if cfg.email == "" then Failure(EmailRequired)
    else if cfg.certDir == "" then Failure(CertDirRequired)
    else
      match cfg.content
      case None => Failure(ContentAbsent)
      case Some(root) =>
        match VerifyItem("/", root, map[])
        case Failure(e) => Failure(ContentInvalid(e))
        case Success(t) => Success(t)
  }
}

=== FILE: walk.dfy ===
/** A second, table-free account of the walk, and the theorem that the
    validator agrees with it. The walk visits the items in pre-order (an item
    before its children, children in declaration order) and reports the error
    of the first visited item that fails its own checks; when there is none it
    writes every item at its path in post-order (children before their
    category), so that a later write to the same path replaces an earlier one. */
module Walk {
  import opened Results
  import opened Paths
  import opened Items
  import opened Validator

  /** Every (path, item) pair the walk reaches, in pre-order. */
  function Visits(pth: string, item: Item): seq<(string, Item)>
    decreases item
  {
    match item.content
    case Category(_, items) => [(pth, item)] + ChildVisits(pth, items)
    case _ => [(pth, item)]
  }

  function ChildVisits(pth: string, items: seq<Item>): seq<(string, Item)>
    decreases items
  {
    if |items| == 0 then []
    else Visits(ChildPath(pth, items[0]), items[0]) + ChildVisits(pth, items[1..])
  }

  /** The writes into the table, in post-order. */
  function Writes(pth: string, item: Item): seq<(string, Item)>
    decreases item
  {
    match item.content
    case Category(_, items) => ChildWrites(pth, items) + [(pth, item)]
    case _ => [(pth, item)]
  }

  function ChildWrites(pth: string, items: seq<Item>): seq<(string, Item)>
    decreases items
  {
    if |items| == 0 then []
    else Writes(ChildPath(pth, items[0]), items[0]) + ChildWrites(pth, items[1..])
  }

  /** The error of the first visit that fails its own checks. */
  function FirstError(vs: seq<(string, Item)>): (r: Option<ItemError>)
    ensures r.None? <==> forall i :: 0 <= i < |vs| ==> NodeError(vs[i].0, vs[i].1).None?
    ensures r.Some? ==> exists i :: 0 <= i < |vs| && NodeError(vs[i].0, vs[i].1) == r &&
                          forall j :: 0 <= j < i ==> NodeError(vs[j].0, vs[j].1).None?
    decreases |vs|
  {
    if |vs| == 0 then None
    else
      match NodeError(vs[0].0, vs[0].1)
      case Some(e) => Some(e)
      case None =>
        var r := FirstError(vs[1..]);
        assert r.Some? ==> exists i :: 1 <= i < |vs| && NodeError(vs[i].0, vs[i].1) == r &&
                             forall j :: 0 <= j < i ==> NodeError(vs[j].0, vs[j].1).None? by {
          if r.Some? {
            var i' :| 0 <= i' < |vs[1..]| && NodeError(vs[1..][i'].0, vs[1..][i'].1) == r &&
                      forall j :: 0 <= j < i' ==> NodeError(vs[1..][j].0, vs[1..][j].1).None?;
            assert forall j :: 0 <= j < i' + 1 ==> NodeError(vs[j].0, vs[j].1).None? by {
              forall j | 0 <= j < i' + 1
                ensures NodeError(vs[j].0, vs[j].1).None?
              {
                if j > 0 {
                  assert vs[j] == vs[1..][j - 1];
                }
              }
            }
            assert vs[i' + 1] == vs[1..][i'];
          }
        }
        r
  }

  /** Writing `ws` into `t` one after the other. */
  function Apply(t: map<string, Item>, ws: seq<(string, Item)>): (r: map<string, Item>)
    ensures r.Keys == t.Keys + set w | w in ws :: w.0
    decreases |ws|
  {
    if |ws| == 0 then t
    else
      var r := Apply(t[ws[0].0 := ws[0].1], ws[1..]);
      assert (set w | w in ws :: w.0) == {ws[0].0} + set w | w in ws[1..] :: w.0 by {
        assert ws == [ws[0]] + ws[1..];
      }
      r
  }

  /** A subtree is accepted when none of its visits fails its checks. */
  predicate Accepted(pth: string, item: Item) {
    FirstError(Visits(pth, item)).None?
  }

  /** What the walk returns, given the reference error and the writes. */
  function Outcome(err: Option<ItemError>, t: map<string, Item>, ws: seq<(string, Item)>): Result<map<string, Item>, ItemError> {
    match err
    case Some(e) => Failure(e)
    case None => Success(Apply(t, ws))
  }

  // ---------------------------------------------------------------------
  // Writing into the table.

  lemma {:induction false} ApplyConcat(t: map<string, Item>, a: seq<(string, Item)>, b: seq<(string, Item)>)
    ensures Apply(t, a + b) == Apply(Apply(t, a), b)
    decreases |a|
  {
    if |a| == 0 {
      assert a + b == b;
    } else {
      assert (a + b)[0] == a[0];
      assert (a + b)[1..] == a[1..] + b;
      ApplyConcat(t[a[0].0 := a[0].1], a[1..], b);
    }
  }

  lemma ApplyOne(t: map<string, Item>, k: string, x: Item)
    ensures Apply(t, [(k, x)]) == t[k := x]
  {
    assert [(k, x)][1..] == [];
  }

  /** Nothing else changes: a path that is never written keeps its entry. */
  lemma {:induction false} ApplyUntouched(t: map<string, Item>, ws: seq<(string, Item)>, k: string)
    requires forall i :: 0 <= i < |ws| ==> ws[i].0 != k
    ensures k in Apply(t, ws) <==> k in t
    ensures k in t ==> Apply(t, ws)[k] == t[k]
    decreases |ws|
  {
    if |ws| > 0 {
      ApplyUntouched(t[ws[0].0 := ws[0].1], ws[1..], k);
    }
  }

  /** The last write to a path wins. */
  lemma {:induction false} ApplyLastWins(t: map<string, Item>, ws: seq<(string, Item)>, j: nat)
    requires j < |ws|
    requires forall i :: j < i < |ws| ==> ws[i].0 != ws[j].0
    ensures ws[j].0 in Apply(t, ws) && Apply(t, ws)[ws[j].0] == ws[j].1
    decreases |ws|
  {
    var t' := t[ws[0].0 := ws[0].1];
    if j == 0 {
      ApplyUntouched(t', ws[1..], ws[0].0);
    } else {
      ApplyLastWins(t', ws[1..], j - 1);
    }
  }

  /** Every entry of the result is an entry of `t` or one of the writes. */
  lemma {:induction false} ApplyFrom(t: map<string, Item>, ws: seq<(string, Item)>, k: string)
    requires k in Apply(t, ws)
    ensures (k, Apply(t, ws)[k]) in ws || (k in t && Apply(t, ws)[k] == t[k])
    decreases |ws|
  {
    if |ws| > 0 {
      var t' := t[ws[0].0 := ws[0].1];
      ApplyFrom(t', ws[1..], k);
      if (k, Apply(t, ws)[k]) in ws[1..] {
        assert ws == [ws[0]] + ws[1..];
      } else if k == ws[0].0 {
        assert (k, Apply(t, ws)[k]) == ws[0];
      }
    }
  }

  // ---------------------------------------------------------------------
  // The validator agrees with the reference walk.

  lemma FirstErrorConcat(a: seq<(string, Item)>, b: seq<(string, Item)>)
    ensures FirstError(a + b) == if FirstError(a).Some? then FirstError(a) else FirstError(b)
    decreases |a|
  {
    if |a| == 0 {
      assert a + b == b;
    } else {
      assert (a + b)[0] == a[0];
      assert (a + b)[1..] == a[1..] + b;
      FirstErrorConcat(a[1..], b);
    }
  }

  lemma FirstErrorCons(v: (string, Item), rest: seq<(string, Item)>)
    ensures FirstError([v] + rest) ==
      if NodeError(v.0, v.1).Some? then NodeError(v.0, v.1) else FirstError(rest)
  {
    assert ([v] + rest)[0] == v;
    assert ([v] + rest)[1..] == rest;
  }

  /** The validator reports the error of the first failing item in
      pre-order; without one it returns the table with all items written in
      post-order. In particular the table passed in never changes which
      error is reported, or whether one is. */
  lemma {:induction false} VerifyItemSpec(pth: string, item: Item, t: map<string, Item>)
    ensures VerifyItem(pth, item, t) == Outcome(FirstError(Visits(pth, item)), t, Writes(pth, item))
    decreases item
  {
    var v := (pth, item);
    match item.content
    case Category(_, items) =>
      FirstErrorCons(v, ChildVisits(pth, items));
      if NodeError(pth, item).None? {
        VerifyChildrenSpec(pth, items, t);
        ApplyConcat(t, ChildWrites(pth, items), [v]);
        if VerifyChildren(pth, items, t).Success? {
          ApplyOne(VerifyChildren(pth, items, t).value, pth, item);
        }
      }
    case _ =>
      FirstErrorCons(v, []);
      assert Visits(pth, item) == [v] + [];
      ApplyOne(t, pth, item);
  }

  lemma {:induction false} VerifyChildrenSpec(pth: string, items: seq<Item>, t: map<string, Item>)
    ensures VerifyChildren(pth, items, t) == Outcome(FirstError(ChildVisits(pth, items)), t, ChildWrites(pth, items))
    decreases items
  {
    if |items| > 0 {
      var c := items[0];
      var cp := ChildPath(pth, c);
      VerifyItemSpec(cp, c, t);
      FirstErrorConcat(Visits(cp, c), ChildVisits(pth, items[1..]));
      if FirstError(Visits(cp, c)).None? {
        var t1 := Apply(t, Writes(cp, c));
        VerifyChildrenSpec(pth, items[1..], t1);
        ApplyConcat(t, Writes(cp, c), ChildWrites(pth, items[1..]));
      }
    }
  }

  // ---------------------------------------------------------------------
  // Acceptance, fail-fast, and what ends up in the table.

  lemma {:induction false} ChildVisitsAccepted(pth: string, items: seq<Item>)
    ensures FirstError(ChildVisits(pth, items)).None? <==>
              forall i :: 0 <= i < |items| ==> Accepted(ChildPath(pth, items[i]), items[i])
    decreases |items|
  {
    if |items| > 0 {
      FirstErrorConcat(Visits(ChildPath(pth, items[0]), items[0]), ChildVisits(pth, items[1..]));
      ChildVisitsAccepted(pth, items[1..]);
      assert forall i :: 1 <= i < |items| ==> items[i] == items[1..][i - 1];
    }
  }

  /** A subtree is accepted exactly when its root passes its own checks and,
      for a category, every child's subtree is accepted at the child's path. */
  lemma AcceptedIff(pth: string, item: Item)
    ensures Accepted(pth, item) <==>
      NodeError(pth, item).None? &&
      (item.content.Category? ==>
         forall i :: 0 <= i < |item.content.items| ==>
           Accepted(ChildPath(pth, item.content.items[i]), item.content.items[i]))
  {
    match item.content
    case Category(_, items) =>
      FirstErrorCons((pth, item), ChildVisits(pth, items));
      ChildVisitsAccepted(pth, items);
    case _ =>
      FirstErrorCons((pth, item), []);
      assert Visits(pth, item) == [(pth, item)] + [];
  }

  /** Fail-fast: when the children before child `i` are accepted and child
      `i` is not, the loop stops with child `i`'s error, unchanged. */
  lemma {:induction false} FailFast(pth: string, items: seq<Item>, t: map<string, Item>, i: nat)
    requires i < |items|
    requires forall j :: 0 <= j < i ==> Accepted(ChildPath(pth, items[j]), items[j])
    requires !Accepted(ChildPath(pth, items[i]), items[i])
    ensures VerifyChildren(pth, items, t) == Failure(FirstError(Visits(ChildPath(pth, items[i]), items[i])).value)
    decreases i
  {
    if i == 0 {
      ChildStops(pth, items, t);
    } else {
      var c := items[0];
      var rest := items[1..];
      ChildPasses(pth, items, t);
      forall j | 0 <= j < i - 1
        ensures Accepted(ChildPath(pth, rest[j]), rest[j])
      {
        assert rest[j] == items[j + 1];
      }
      assert rest[i - 1] == items[i];
      FailFast(pth, rest, Apply(t, Writes(ChildPath(pth, c), c)), i - 1);
    }
  }

  /** The loop stops at a first child that is not accepted. */
  lemma ChildStops(pth: string, items: seq<Item>, t: map<string, Item>)
    requires |items| > 0
    requires !Accepted(ChildPath(pth, items[0]), items[0])
    ensures VerifyChildren(pth, items, t) == Failure(FirstError(Visits(ChildPath(pth, items[0]), items[0])).value)
  {
    VerifyItemSpec(ChildPath(pth, items[0]), items[0], t);
  }

  /** The loop moves past an accepted first child with its writes applied. */
  lemma ChildPasses(pth: string, items: seq<Item>, t: map<string, Item>)
    requires |items| > 0
    requires Accepted(ChildPath(pth, items[0]), items[0])
    ensures VerifyChildren(pth, items, t) ==
              VerifyChildren(pth, items[1..], Apply(t, Writes(ChildPath(pth, items[0]), items[0])))
  {
    VerifyItemSpec(ChildPath(pth, items[0]), items[0], t);
  }

  /** Every visited item is written exactly as often as it is visited, at
      the path it was visited at; so every path in the table is the path of
      a visited item and every visited item was written at its path. */
  lemma {:induction false} WritesPermuteVisits(pth: string, item: Item)
    ensures multiset(Writes(pth, item)) == multiset(Visits(pth, item))
    decreases item
  {
    match item.content
    case Category(_, items) => ChildWritesPermuteVisits(pth, items);
    case _ =>
  }

  lemma {:induction false} ChildWritesPermuteVisits(pth: string, items: seq<Item>)
    ensures multiset(ChildWrites(pth, items)) == multiset(ChildVisits(pth, items))
    decreases items
  {
    if |items| > 0 {
      WritesPermuteVisits(ChildPath(pth, items[0]), items[0]);
      ChildWritesPermuteVisits(pth, items[1..]);
    }
  }

  /** A path's shape agrees with the item at it: rooted, and apart from the
      root itself, ending in '/' exactly for categories. */
  predicate Shaped(k: string, x: Item) {
    Rooted(k) && (k != "/" ==> (EndsWithSlash(k) <==> x.content.Category?))
  }

  lemma {:induction false} ChildWritesShaped(pth: string, items: seq<Item>)
    requires Rooted(pth)
    ensures forall w :: w in ChildWrites(pth, items) ==> Shaped(w.0, w.1)
    decreases items
  {
    if |items| > 0 {
      var c := items[0];
      var cp := ChildPath(pth, c);
      match c.content {
        case Category(_, sub) => ChildWritesShaped(cp, sub);
        case _ =>
      }
      ChildWritesShaped(pth, items[1..]);
    }
  }

  /** Below a rooted, well-shaped start every write is well-shaped. */
  lemma WritesShaped(pth: string, item: Item)
    requires Shaped(pth, item)
    ensures forall w :: w in Writes(pth, item) ==> Shaped(w.0, w.1)
  {
    match item.content {
      case Category(_, items) => ChildWritesShaped(pth, items);
      case _ =>
    }
  }

  /** Every written category has each of its children written at the
      child's path. */
  predicate ChildrenWritten(ws: seq<(string, Item)>) {
    forall w :: w in ws && w.1.content.Category? ==>
      forall c :: c in w.1.content.items ==> (ChildPath(w.0, c), c) in ws
  }

  lemma ChildrenWrittenConcat(a: seq<(string, Item)>, b: seq<(string, Item)>)
    requires ChildrenWritten(a) && ChildrenWritten(b)
    ensures ChildrenWritten(a + b)
  {
    forall w | w in a + b && w.1.content.Category?
      ensures forall c :: c in w.1.content.items ==> (ChildPath(w.0, c), c) in a + b
    {
      if w in a {
        assert forall c :: c in w.1.content.items ==> (ChildPath(w.0, c), c) in a;
      } else {
        assert forall c :: c in w.1.content.items ==> (ChildPath(w.0, c), c) in b;
      }
    }
  }

  lemma WriteOfSelf(pth: string, item: Item)
    ensures (pth, item) in Writes(pth, item)
  {
    match item.content {
      case Category(_, items) =>
        assert Writes(pth, item)[|Writes(pth, item)| - 1] == (pth, item);
      case _ =>
    }
  }

  lemma {:induction false} WritesClosed(pth: string, item: Item)
    ensures ChildrenWritten(Writes(pth, item))
    decreases item
  {
    var v := (pth, item);
    match item.content {
      case Category(_, items) =>
        ChildWritesClosed(pth, items);
        var cw := ChildWrites(pth, items);
        assert Writes(pth, item) == cw + [v];
        forall w | w in cw + [v] && w.1.content.Category?
          ensures forall c :: c in w.1.content.items ==> (ChildPath(w.0, c), c) in cw + [v]
        {
          if w in cw {
            assert forall c :: c in w.1.content.items ==> (ChildPath(w.0, c), c) in cw;
          } else {
            assert w == v;
          }
        }
      case _ =>
        assert ChildrenWritten([v]);
    }
  }

  lemma {:induction false} ChildWritesClosed(pth: string, items: seq<Item>)
    ensures ChildrenWritten(ChildWrites(pth, items))
    ensures forall c :: c in items ==> (ChildPath(pth, c), c) in ChildWrites(pth, items)
    decreases items
  {
    if |items| > 0 {
      var c0 := items[0];
      var w0 := Writes(ChildPath(pth, c0), c0);
      var rest := ChildWrites(pth, items[1..]);
      WritesClosed(ChildPath(pth, c0), c0);
      ChildWritesClosed(pth, items[1..]);
      ChildrenWrittenConcat(w0, rest);
      WriteOfSelf(ChildPath(pth, c0), c0);
      forall c | c in items
        ensures (ChildPath(pth, c), c) in w0 + rest
      {
        if c != c0 {
          assert c in items[1..];
        }
      }
    }
  }

  // ---------------------------------------------------------------------
  // The whole configuration.

  /** A configuration is accepted exactly when the three required fields are
      set, it has a root item, and the tree from "/" is accepted; the table
      is then all the writes applied to an empty table. A tree error comes
      back wrapped, and it is the first failing item's error. */
  lemma ConfigSpec(cfg: Config)
    ensures ParseAndVerifyConfig(cfg).Success? <==>
      cfg.hostName != "" && cfg.email != "" && cfg.certDir != "" &&
      cfg.content.Some? && Accepted("/", cfg.content.value)
    ensures ParseAndVerifyConfig(cfg).Success? ==>
      ParseAndVerifyConfig(cfg).value == Apply(map[], Writes("/", cfg.content.value))
    ensures cfg.hostName != "" && cfg.email != "" && cfg.certDir != "" &&
            cfg.content.Some? && !Accepted("/", cfg.content.value) ==>
      ParseAndVerifyConfig(cfg) == Failure(ContentInvalid(FirstError(Visits("/", cfg.content.value)).value))
  {
    if cfg.content.Some? {
      VerifyItemSpec("/", cfg.content.value, map[]);
    }
  }

  /** What a loaded table holds: every entry passed its checks and is
      well-shaped, and every child of a category entry has its path as a key
      and passed its checks there. The entry at that path may be a later
      sibling with the same path, or the root. */
  lemma LoadedTable(cfg: Config, table: map<string, Item>)
    requires ParseAndVerifyConfig(cfg) == Success(table)
    ensures forall k :: k in table ==> NodeError(k, table[k]).None? && Shaped(k, table[k])
    ensures forall k :: k in table && table[k].content.Category? ==>
              forall c :: c in table[k].content.items ==>
                ChildPath(k, c) in table && NodeError(ChildPath(k, c), c).None?
  {
    var root := cfg.content.value;
    ConfigSpec(cfg);
    AcceptedWritesPass("/", root);
    WritesShaped("/", root);
    WritesClosed("/", root);
    TableOfWrites(Writes("/", root), table);
  }

  /** Registration on a loaded table: the paths in the table are exactly
      the paths the walk visited, and every entry is a visited item at the
      path it was visited at. */
  lemma TableIsVisits(cfg: Config, table: map<string, Item>)
    requires ParseAndVerifyConfig(cfg) == Success(table)
    ensures forall v :: v in Visits("/", cfg.content.value) ==> v.0 in table
    ensures forall k :: k in table ==> (k, table[k]) in Visits("/", cfg.content.value)
  {
    var root := cfg.content.value;
    var ws := Writes("/", root);
    var vs := Visits("/", root);
    ConfigSpec(cfg);
    WritesPermuteVisits("/", root);
    assert table == Apply(map[], ws);
    forall v | v in vs
      ensures v.0 in table
    {
      assert v in multiset(ws);
    }
    forall k | k in table
      ensures (k, table[k]) in vs
    {
      ApplyFrom(map[], ws, k);
      assert (k, table[k]) in multiset(vs);
    }
  }

  /** Every item written by an accepted subtree passed its own checks. */
  lemma AcceptedWritesPass(pth: string, item: Item)
    requires Accepted(pth, item)
    ensures forall w :: w in Writes(pth, item) ==> NodeError(w.0, w.1).None?
  {
    var vs := Visits(pth, item);
    WritesPermuteVisits(pth, item);
    forall w | w in Writes(pth, item)
      ensures NodeError(w.0, w.1).None?
    {
      assert w in multiset(vs);
      var i :| 0 <= i < |vs| && vs[i] == w;
    }
  }

  /** A table made of checked, well-shaped, child-closed writes inherits
      those properties entry by entry. */
  lemma TableOfWrites(ws: seq<(string, Item)>, table: map<string, Item>)
    requires table == Apply(map[], ws)
    requires forall w :: w in ws ==> NodeError(w.0, w.1).None? && Shaped(w.0, w.1)
    requires ChildrenWritten(ws)
    ensures forall k :: k in table ==> NodeError(k, table[k]).None? && Shaped(k, table[k])
    ensures forall k :: k in table && table[k].content.Category? ==>
              forall c :: c in table[k].content.items ==>
                ChildPath(k, c) in table && NodeError(ChildPath(k, c), c).None?
  {
    forall k | k in table
      ensures (k, table[k]) in ws
    {
      ApplyFrom(map[], ws, k);
    }
  }
}
